=== FILE: README.md ===
# PromptPay QR payload encoder, modelled in Dafny

`src/utils/promptpay.js` builds the text of a Thai PromptPay "merchant
presented" QR code: a chain of EMVCo data objects (two-character identifier,
two-digit decimal length, value) for a mobile-number proxy and an optional
amount, closed by object 63 carrying the CRC-16/CCITT-FALSE checksum of
everything before it. This project models the whole file:

- `tlv` (the data-object writer), with a reader `ParseObject`/`ParseObjects`
  as its proved inverse;
- `formatPhone` (digit stripping and the rewrite chain to the `668…` form);
- `crc16` twice: as a loop over 32-bit JavaScript numbers, and as a
  functional register over 16-bit values, proved equal; plus the hex
  rendering, the standard check value and the detection of single
  substitutions;
- `Number(amount).toFixed(2)` for whole numbers of satang (1/100 baht), with a
  reader as partner;
- `generatePromptPayPayload`, the only export: the fixed order of objects,
  the 12-to-13-digit top-up of the proxy, the optional amount, and the
  checksum that makes the payload self-validating.

Modules follow the file: `Wrappers` (Option), `Numerals` (decimal and hex
numerals, `padStart`, `toUpperCase`), `Emv` (data objects), `Phone`,
`Crc16`, `Amount`, `PromptPay` (the assembler).

The model follows the code as written. Two consequences are worth knowing:

- The proxy is `"6668"` followed by the nine subscriber digits for a
  ten-digit local number (`"0902748581"` becomes `"6668902748581"`), because
  the 11-digit rule inserts an `8` after `66` whatever digit follows and the
  top-up then adds a leading `6`. `Phone.LocalEightIsDoubled` and
  `PromptPay.LocalNumberPayload` state this.
- `generatePromptPayPayload` does not check the amount: a negative amount
  is truthy and is written with its minus sign
  (src/utils/promptpay.js:67-68). The model takes the amount as a natural
  number of satang, so no such input exists in it.

## Model

| member | source | states |
|---|---|---|
| Numerals.ToBase | src/utils/promptpay.js:7 | `toString()` of a number: at least one character, every character a lower-case digit of the base |
| Numerals.ToBaseValue | src/utils/promptpay.js:7 | reading the numeral back in the same base gives the number |
| Numerals.ToBaseLength | src/utils/promptpay.js:7 | the numeral has at most k digits exactly when the number is below base^k |
| Numerals.ToBaseLeading | src/utils/promptpay.js:68 | `toString()` writes no leading zero: the numeral starts with `0` exactly when the number is zero |
| Numerals.PadStart | src/utils/promptpay.js:7 | `padStart(width, fill)` makes the text exactly `width` long when it was shorter and leaves its length otherwise |
| Numerals.ZeroPadValue | src/utils/promptpay.js:46 | padding a numeral with zeros on the left keeps its value |
| Numerals.ZeroPadDigits | src/utils/promptpay.js:7 | padding a decimal numeral with zeros keeps it all digits |
| Numerals.ToUpperNumeral | src/utils/promptpay.js:46 | `toUpperCase()` of a lower-case hex numeral is an upper-case hex numeral with the same value |
| Numerals.Pad2 | src/utils/promptpay.js:7 | the length field is all digits, and exactly two of them when the length is at most 99 |
| Numerals.Pad2Value | src/utils/promptpay.js:7 | the length field reads back as the length |
| Emv.Tlv | src/utils/promptpay.js:6-9 | the object starts with the identifier, ends with the value, and has the two-digit length field in between exactly when the value has at most 99 characters |
| Emv.TlvHeader | src/utils/promptpay.js:7 | the two header digits of a framable object read as the length of its value |
| Emv.TwoDigitsCanonical | src/utils/promptpay.js:7 | every two-digit length field is the one `tlv` writes for its value, so the reader accepts nothing the writer would not produce |
| Emv.ParseObject | src/utils/promptpay.js:6-9 | whatever the reader accepts is a framable object written by `tlv`, followed by the rest of the text |
| Emv.ParseTlv | src/utils/promptpay.js:6-9 | reading back what `tlv` wrote gives the same identifier, value and remaining text |
| Emv.OversizedValueBreaksFraming | src/utils/promptpay.js:7-8 | a value of 100 characters or more gets a length field of three or more digits, and the reader no longer finds that object |
| Emv.ParseObjects | src/utils/promptpay.js:71 | a text split into objects is exactly the concatenation of their encodings, each framable |
| Emv.ParseEncodeObjects | src/utils/promptpay.js:71 | writing framable objects one after another and splitting the text gives the same objects in the same order |
| Emv.EncodeObjectsAppend | src/utils/promptpay.js:71 | writing two runs of objects is writing the first, then the second |
| Phone.StripNonDigits | src/utils/promptpay.js:12 | `replace(/\D/g, '')` leaves only digits, keeps every digit as often as the input has it, and leaves a digit string unchanged |
| Phone.StripNonDigitsOne | src/utils/promptpay.js:12 | one character survives exactly when it is a digit |
| Phone.StripNonDigitsAppend | src/utils/promptpay.js:12 | stripping works piece by piece, so the digits keep their order |
| Phone.FormatPhone | src/utils/promptpay.js:11-31 | the case table of the rewrite chain over the stripped digits: 10 digits with 0, 11 with 66, 12 with 668, 9 with 8, anything else unchanged |
| Phone.FormatPhoneIdempotent | src/utils/promptpay.js:11-31 | formatting a formatted number changes nothing |
| Phone.LocalEightIsDoubled | src/utils/promptpay.js:14-20 | a local number 08XXXXXXXX comes out as 6688XXXXXXXX, with the 8 twice |
| Crc16.CodesAppend | src/utils/promptpay.js:35-36 | the code units of a concatenation are those of the parts |
| Crc16.Shift | src/utils/promptpay.js:38-43 | one shift step keeps the register within 16 bits |
| Crc16.Register | src/utils/promptpay.js:34-45 | the register after a run of code units stays within 16 bits |
| Crc16.RegisterAppend | src/utils/promptpay.js:35-45 | the register over a concatenation is the register over the second part started from the register over the first |
| Crc16.Hex4 | src/utils/promptpay.js:46 | four upper-case hex digits whose value is the register |
| Crc16.Hex4Injective | src/utils/promptpay.js:46 | different registers give different hex texts |
| Crc16.Checksum | src/utils/promptpay.js:33-47 | four upper-case hex digits whose value is the CRC register over the text's code units, started from 0xFFFF |
| Crc16.Step | src/utils/promptpay.js:38-43 | the statement sequence of one inner iteration computes the shift step |
| Crc16.ShiftEight | src/utils/promptpay.js:37-44 | the inner loop performs eight shift steps |
| Crc16.UpdateChar | src/utils/promptpay.js:36-44 | one outer iteration folds one code unit into the register |
| Crc16.Crc16 | src/utils/promptpay.js:33-47 | the loop over 32-bit numbers returns exactly the checksum of the functional model |
| Crc16.UnshiftShift | src/utils/promptpay.js:38-43 | the shift step loses no information about the low 16 bits |
| Crc16.ShiftInjective | src/utils/promptpay.js:38-43 | two registers with the same shift step agree in their low 16 bits |
| Crc16.ShiftsInjective | src/utils/promptpay.js:37-44 | the same holds for any positive number of steps |
| Crc16.UpdateWordLowByteOnly | src/utils/promptpay.js:36 | only the low byte of a code unit reaches the register, since `<< 8` is masked to 16 bits |
| Crc16.UpdateWordSeparates | src/utils/promptpay.js:36-44 | code units with different low bytes lead to different registers |
| Crc16.UpdateWordInjective | src/utils/promptpay.js:36-44 | the same code unit applied to different registers gives different registers |
| Crc16.UpdateCodeSeesLowByte | src/utils/promptpay.js:36-44 | two code units give the same register exactly when their low bytes agree |
| Crc16.UpdateCodeInjective | src/utils/promptpay.js:36-44 | folding a code unit never merges two distinct registers |
| Crc16.RegisterInjective | src/utils/promptpay.js:35-45 | folding a whole run never merges two distinct registers |
| Crc16.SubstitutionChangesRegister | src/utils/promptpay.js:35-45 | replacing one code unit by one with a different low byte changes the final register |
| Crc16.ChecksumRegister | src/utils/promptpay.js:46 | equal checksums mean equal registers |
| Crc16.ChecksumDetectsSubstitution | src/utils/promptpay.js:33-47 | replacing one character by one with a different low byte changes the checksum |
| Crc16.CheckRegister | src/utils/promptpay.js:34-45 | the register over "123456789" is 0x29B1, the standard check value of CRC-16/CCITT-FALSE |
| Crc16.CheckValue | src/utils/promptpay.js:33-47 | the checksum of "123456789" is "29B1" |
| Amount.AmountText | src/utils/promptpay.js:68 | the rendering is digits, a dot, and exactly two digits, and it starts with `0` exactly when the amount is below one baht, in which case it is `0.` and two digits, so the whole part has no leading zero |
| Amount.AmountTextValue | src/utils/promptpay.js:68 | the digits before the dot read as the whole baht and the two after as the satang |
| Amount.Fixed | src/utils/promptpay.js:68 | whole part, dot and two-digit fraction; the part before the dot reads as the whole, the two digits after it as the fraction, and the text starts with `0` only when the whole is zero, and is then four characters long |
| Amount.AmountTextCanonical | src/utils/promptpay.js:68 | the whole part has at most k digits exactly when the whole baht are below 10^k: it is the shortest decimal numeral of the whole baht |
| Amount.ParseAmountText | src/utils/promptpay.js:68 | reading a rendered amount gives the amount back |
| Amount.AmountTextInjective | src/utils/promptpay.js:68 | different amounts render differently |
| Amount.AmountTextFits | src/utils/promptpay.js:68 | an amount with at most 96 integer digits renders within a two-digit length field |
| PromptPay.Mobile | src/utils/promptpay.js:57-58 | the proxy over the stripped digits: 6668 + nine digits for a local number, 6668 + nine digits for 66 + nine digits, 6 + the number for any 12 digits, 6668 + the number for 9 digits starting with 8, the digits themselves otherwise |
| PromptPay.MerchantAccount | src/utils/promptpay.js:55-60 | the value of object 29 is "0016", the PromptPay identifier, then the proxy as object 01 |
| PromptPay.AmountTag | src/utils/promptpay.js:66-69 | object 54 is absent exactly for a missing or zero amount, and otherwise carries the rendered amount |
| PromptPay.PromptPayPayload | src/utils/promptpay.js:50-77 | the payload is valid (ends with "6304" and four characters equal to the checksum of all before them) and its checksummed text is 000201, 010212, object 29, 5303764, 5802TH, the amount object, 6304 |
| PromptPay.ZeroAmountOmitted | src/utils/promptpay.js:66-69 | a zero amount gives the same payload as no amount |
| PromptPay.BodyIsCodeUnits | src/utils/promptpay.js:71-75 | every character of the checksummed text is a single code unit |
| PromptPay.PayloadLayout | src/utils/promptpay.js:52-76 | a reader splits the payload into objects 00, 01, 29, 53, 58, then 54 when there is an amount, then 63 holding the checksum, and object 29 into the identifier and the proxy |
| PromptPay.AccountLayout | src/utils/promptpay.js:55-60 | the value of object 29 splits into the identifier object and the proxy object |
| PromptPay.LongProxyBreaksFraming | src/utils/promptpay.js:57-60 | a proxy of more than 75 digits makes object 29 longer than 99 characters, and a reader no longer finds it |
| PromptPay.LocalMobile | src/utils/promptpay.js:57-58 | a local number 0 + nine digits becomes the proxy 6668 + those digits |
| PromptPay.LocalNumberPayload | src/utils/promptpay.js:50-77 | for a local number and 100 baht the checksummed text is exactly the expected string, with object 29 of 37 characters and object 54 "100.00" |
| PromptPay.HundredBaht | src/utils/promptpay.js:68 | 10000 satang render as "100.00", written as object "5406100.00" |
| PromptPay.SubstitutionDetected | src/utils/promptpay.js:73-76 | changing one character before the checksum to one with a different low byte makes the payload invalid |

## Left out

- Amount.AmountText: an `Option<nat>` of satang replaces `Number(amount).toFixed(2)`. This leaves out floating-point rounding, the exponent notation `toFixed` uses at or above 1e21, negative and NaN amounts, and JavaScript truthiness: a string `"0"` is truthy and would emit `"0.00"`.
- Crc16.Crc16: `IsCodeUnits` admits only characters up to U+FFFF. JavaScript stores a character above U+FFFF as two code units, and that case is not modelled. Every character of the payload is a single UTF-16 code unit (`PromptPay.BodyIsCodeUnits`).
- Emv.Tlv: `|value|` counts Dafny characters, not UTF-16 code units as `value.length` does. The two agree on every string whose characters are single code units, which includes every value the payload frames.
- Numerals.PadStart: the contract gives only the length. What the padding contains is stated by the lemmas that use it (`ZeroPadValue`, `ZeroPadDigits`, `ZeroPadUpperHex`).
- PromptPay.PayloadLayout: stated only for proxies of at most 75 digits and amounts below 10^96 baht. Beyond that the code writes three-digit length fields and breaks its own framing (`PromptPay.LongProxyBreaksFraming`, `Emv.OversizedValueBreaksFraming`).
- PromptPay.LocalNumberPayload: states the checksummed text, not the four checksum characters of that particular payload. They are the CRC of that text by `PromptPay.PromptPayPayload`, and the algorithm is pinned by `Crc16.CheckValue`.
- Everything outside `src/utils/promptpay.js` (routes, data models, the page that renders the QR image) is not part of this model.

=== FILE: amount.dfy ===
/**
  The amount of a payment as the payload writes it: a decimal numeral with
  exactly two fractional digits. The amount is held as a whole number of
  satang (hundredths of a baht), so the rendering is exact.
 */
module Amount {
  import opened Numerals
  import opened Wrappers

  /**
    The fixed-point rendering of `satang / 100` baht: the whole baht in
    decimal, a dot, then the satang padded to two digits.
   */
  function AmountText(satang: nat): (r: string)
    ensures 4 <= |r| && r[|r| - 3] == '.'
    ensures IsDigits(r[..|r| - 3]) && IsDigits(r[|r| - 2..])
    ensures r[0] == '0' <==> satang < 100
    ensures satang < 100 ==> |r| == 4
  {
    Fixed(satang / 100, satang % 100)
  }

  /** The part before the dot reads as the whole baht, the part after it as the satang */
  lemma AmountTextValue(satang: nat)
    ensures var r := AmountText(satang);
      && FromBase(r[..|r| - 3], 10) == satang / 100
      && FromBase(r[|r| - 2..], 10) == satang % 100
  {
    var w, f := ToBase(satang / 100, 10), Pad2(satang % 100);
    SplitAtDot(w, f);
    ToBaseValue(satang / 100, 10);
    Pad2Value(satang % 100);
  }

  /** The whole part in decimal, a dot, and a fractional part below 100 in two digits */
  function Fixed(whole: nat, frac: nat): (r: string)
    requires frac <= 99
    ensures 4 <= |r| && r[|r| - 3] == '.'
    ensures IsDigits(r[..|r| - 3]) && IsDigits(r[|r| - 2..])
    ensures FromBase(r[..|r| - 3], 10) == whole && FromBase(r[|r| - 2..], 10) == frac
    ensures r[0] == '0' <==> whole == 0
    ensures whole == 0 ==> |r| == 4
  {
    var w := ToBase(whole, 10);
    DecimalIsDigits(w);
    SplitAtDot(w, Pad2(frac));
    ToBaseValue(whole, 10);
    ToBaseLeading(whole, 10);
    Pad2Value(frac);
    w + "." + Pad2(frac)
  }

  lemma SplitAtDot(whole: string, frac: string)
    requires 1 <= |whole| && |frac| == 2
    requires IsDigits(whole) && IsDigits(frac)
    ensures var r := whole + "." + frac;
      && 4 <= |r| && r[|r| - 3] == '.'
      && r[..|r| - 3] == whole && r[|r| - 2..] == frac
      && IsDigits(r[..|r| - 3]) && IsDigits(r[|r| - 2..])
  {
    var r := whole + "." + frac;
    assert r[..|r| - 3] == whole;
    assert r[|r| - 2..] == frac;
  }

  /**
    Reads a fixed-point amount with two fractional digits back into satang;
    anything else is rejected.
   */
  function ParseAmount(s: string): (r: Option<nat>)
    ensures r.Some? <==> 4 <= |s| && s[|s| - 3] == '.' && IsDigits(s[..|s| - 3]) && IsDigits(s[|s| - 2..])
    ensures r.Some? ==> r.value == FromBase(s[..|s| - 3], 10) * 100 + FromBase(s[|s| - 2..], 10)
  {
    if 4 <= |s| && s[|s| - 3] == '.' && IsDigits(s[..|s| - 3]) && IsDigits(s[|s| - 2..]) then
      Some(FromBase(s[..|s| - 3], 10) * 100 + FromBase(s[|s| - 2..], 10))
    else
      None
  }

  /**
    The whole part has as many digits as `satang / 100` needs and no more:
    at most `k` digits exactly when the whole baht are below 10^k.
   */
  lemma AmountTextCanonical(satang: nat, k: nat)
    requires 1 <= k
    ensures |AmountText(satang)| - 3 <= k <==> satang / 100 < Pow(10, k)
  {
    ToBaseLength(satang / 100, 10, k);
  }

  /** Reading the rendering of an amount gives the amount back */
  lemma ParseAmountText(satang: nat)
    ensures ParseAmount(AmountText(satang)) == Some(satang)
  {
    AmountTextValue(satang);
    Hundreds(satang);
  }

  lemma Hundreds(n: nat)
    ensures n == (n / 100) * 100 + n % 100
  {
  }

  /** Distinct amounts are written differently */
  lemma AmountTextInjective(a: nat, b: nat)
    requires AmountText(a) == AmountText(b)
    ensures a == b
  {
    ParseAmountText(a);
    ParseAmountText(b);
  }

  /** The rendering of an amount is short enough for a two-digit length field */
  lemma AmountTextFits(satang: nat)
    requires satang < 100 * Pow(10, 96)
    ensures |AmountText(satang)| <= 99
  {
    ToBaseLength(satang / 100, 10, 96);
  }
}

=== FILE: crc16.dfy ===
/**
  `crc16`: the CRC-16/CCITT-FALSE checksum that closes an EMVCo payload
  (initial register 0xFFFF, polynomial 0x1021, bits taken most significant
  first, no reflection, no final XOR), rendered as four upper-case hex digits.

  The register is a JavaScript number that the bitwise operators treat as a
  32-bit integer; it is modelled as a `bv32` and kept in [0, 0xFFFF] by the
  mask the source applies after every shift.
 */
module Crc16 {
  import opened Numerals

  const Init: bv32 := 0xFFFF
  const Poly: bv32 := 0x1021

  /** Strings whose every character is one UTF-16 code unit, so that `charCodeAt` is its code */
  predicate IsCodeUnits(s: string) {
    forall i :: 0 <= i < |s| ==> s[i] as int < 0x1_0000
  }

  /** What `charCodeAt` returns: a UTF-16 code unit */
  type CodeUnit = c: nat | c < 0x1_0000

  /** `str.charCodeAt(i)` for every position */
  function Codes(s: string): (c: seq<CodeUnit>)
    requires IsCodeUnits(s)
    ensures |c| == |s|
    ensures forall i :: 0 <= i < |s| ==> c[i] == s[i] as int
  {
    seq(|s|, i requires 0 <= i < |s| => s[i] as int)
  }

  lemma CodeUnitsAppend(s: string, t: string)
    requires IsCodeUnits(s) && IsCodeUnits(t)
    ensures IsCodeUnits(s + t)
  {
    forall i | 0 <= i < |s + t| ensures (s + t)[i] as int < 0x1_0000 {
      if i >= |s| {
        assert (s + t)[i] == t[i - |s|];
      }
    }
  }

  lemma CodesAppend(s: string, t: string)
    requires IsCodeUnits(s) && IsCodeUnits(t)
    ensures IsCodeUnits(s + t)
    ensures Codes(s + t) == Codes(s) + Codes(t)
  {
    CodeUnitsAppend(s, t);
    var b, c := Codes(s + t), Codes(s) + Codes(t);
    forall i | 0 <= i < |b| ensures b[i] == c[i] {
      if i < |s| {
        assert (s + t)[i] == s[i];
      } else {
        assert (s + t)[i] == t[i - |s|];
      }
    }
  }

  /**
    One step of the inner loop: shift left, XOR in the polynomial when the bit
    shifted out of the 16-bit register was set, and mask back to 16 bits.
   */
  function Shift(crc: bv32): (r: bv32)
    ensures r <= 0xFFFF
  {
    (if crc & 0x8000 != 0 then (crc << 1) ^ Poly else crc << 1) & 0xFFFF
  }

  function Shifts(crc: bv32, k: nat): (r: bv32)
    ensures 1 <= k ==> r <= 0xFFFF
  {
    if k == 0 then crc else Shift(Shifts(crc, k - 1))
  }

  /**
    The 32-bit pattern a JavaScript bitwise operator sees for a non-negative
    integer: its binary digits, those above bit 31 dropped.
   */
  function Bits(n: nat): bv32
    decreases n
  {
    if n == 0 then 0
    else if n % 2 == 0 then Bits(n / 2) << 1
    else (Bits(n / 2) << 1) | 1
  }

  /** One code, as the bitwise operators see it: `crc ^= code << 8` puts it in the high byte, then eight shifts */
  function UpdateWord(crc: bv32, w: bv32): (r: bv32)
    ensures r <= 0xFFFF
  {
    Shifts(crc ^ (w << 8), 8)
  }

  /** One character */
  function UpdateCode(crc: bv32, c: CodeUnit): (r: bv32)
    ensures r <= 0xFFFF
  {
    UpdateWord(crc, Bits(c))
  }

  /** The register after the code units `m`, starting from `crc` */
  function Register(crc: bv32, m: seq<CodeUnit>): (r: bv32)
    ensures m != [] || crc <= 0xFFFF ==> r <= 0xFFFF
    decreases |m|
  {
    if m == [] then crc else UpdateCode(Register(crc, m[..|m| - 1]), m[|m| - 1])
  }

  /** Reading a message in two pieces leaves the same register as reading it whole */
  lemma {:induction false} RegisterAppend(crc: bv32, a: seq<CodeUnit>, b: seq<CodeUnit>)
    ensures Register(crc, a + b) == Register(Register(crc, a), b)
    decreases |b|
  {
    if b == [] {
      assert a + b == a;
    } else {
      assert (a + b)[..|a + b| - 1] == a + b[..|b| - 1];
      RegisterAppend(crc, a, b[..|b| - 1]);
    }
  }

  lemma RegisterSnoc(crc: bv32, m: seq<CodeUnit>, c: CodeUnit)
    ensures Register(crc, m + [c]) == UpdateCode(Register(crc, m), c)
  {
    assert (m + [c])[..|m|] == m;
  }

  /**
    `crc.toString(16).toUpperCase().padStart(4, '0')` for a 16-bit register:
    exactly four upper-case hex digits whose value is the register.
   */
  function Hex4(v: nat): (r: string)
    requires v <= 0xFFFF
    ensures |r| == 4
    ensures IsUpperHex(r)
    ensures FromBase(r, 16) == v
  {
    var t := ToBase(v, 16);
    ToBaseValue(v, 16);
    ToBaseLength(v, 16, 4);
    ToUpperNumeral(t, 16);
    ZeroPadUpperHex(ToUpper(t), 4);
    ZeroPadValue(ToUpper(t), 4, 16);
    PadStart(ToUpper(t), 4, '0')
  }

  /** Distinct registers render as distinct trailers */
  lemma Hex4Injective(v: nat, w: nat)
    requires v <= 0xFFFF && w <= 0xFFFF
    requires Hex4(v) == Hex4(w)
    ensures v == w
  {
  }

  lemma IntRoundTrip(v: bv32)
    ensures (v as int) as bv32 == v
  {
  }

  /** The four-character checksum of a string of code units */
  function Checksum(s: string): (r: string)
    requires IsCodeUnits(s)
    ensures |r| == 4 && IsUpperHex(r)
    ensures FromBase(r, 16) == Register(Init, Codes(s)) as int
  {
    Hex4(Register(Init, Codes(s)) as int)
  }

  lemma ShiftHigh(crc: bv32)
    requires crc & 0x8000 != 0
    ensures Shift(crc) == ((crc << 1) ^ 0x1021) & 0xFFFF
  {
  }

  lemma ShiftLow(crc: bv32)
    requires crc & 0x8000 == 0
    ensures Shift(crc) == (crc << 1) & 0xFFFF
  {
  }

  /** The body of the inner loop of `crc16`, as written */
  method Step(crc0: bv32) returns (crc: bv32)
    ensures crc == Shift(crc0)
    ensures crc <= 0xFFFF
  {
    crc := crc0;
    if crc & 0x8000 != 0 {
      ShiftHigh(crc);
      crc := (crc << 1) ^ 0x1021;
    } else {
      ShiftLow(crc);
      crc := crc << 1;
    }
    crc := crc & 0xFFFF;
  }

  /** The inner loop of `crc16`: eight steps */
  method ShiftEight(entry: bv32) returns (crc: bv32)
    ensures crc == Shifts(entry, 8)
    ensures crc <= 0xFFFF
  {
    crc := entry;
    var j := 0;
    while j < 8
      invariant 0 <= j <= 8
      invariant crc == Shifts(entry, j)
    {
      crc := Step(crc);
      j := j + 1;
    }
  }

  /** The body of the outer loop of `crc16`: mix in one code unit, then the inner loop */
  method UpdateChar(crc0: bv32, c: CodeUnit) returns (crc: bv32)
    ensures crc == UpdateCode(crc0, c)
  {
    crc := crc0 ^ (Bits(c) << 8);
    crc := ShiftEight(crc);
  }

  /**
    `crc16(str)` as written: the register starts at 0xFFFF, each character
    code is XORed into its high byte and followed by the eight masked steps,
    and the register is rendered as hex. The result is the checksum of the
    string: four upper-case hex digits whose value is the final register.
   */
  method Crc16(str: string) returns (hex: string)
    requires IsCodeUnits(str)
    ensures hex == Checksum(str)
    ensures |hex| == 4 && IsUpperHex(hex)
    ensures FromBase(hex, 16) == Register(Init, Codes(str)) as int
  {
    var codes := Codes(str);
    var crc: bv32 := 0xFFFF;
    var i := 0;
    while i < |str|
      invariant 0 <= i <= |str|
      invariant crc == Register(Init, codes[..i])
    {
      assert codes[..i + 1][..i] == codes[..i];
      crc := UpdateChar(crc, codes[i]);
      i := i + 1;
    }
    assert codes[..i] == codes;
    hex := Hex4(crc as int);
  }

  /* Properties of the checksum */

  /**
    One step run backwards: bit 0 of a shifted register tells whether the
    polynomial was XORed in, and so which bit was shifted out.
   */
  function Unshift(r: bv32): bv32 {
    if r & 1 != 0 then ((r ^ Poly) >> 1) | 0x8000 else r >> 1
  }

  lemma UnshiftHigh(x: bv32)
    requires x & 0x8000 != 0
    ensures Unshift(Shift(x)) == x & 0xFFFF
  {
  }

  lemma UnshiftLow(x: bv32)
    requires x & 0x8000 == 0
    ensures Unshift(Shift(x)) == x & 0xFFFF
  {
  }

  /** Running a step backwards recovers the 16-bit register it started from */
  lemma UnshiftShift(x: bv32)
    ensures Unshift(Shift(x)) == x & 0xFFFF
  {
    if x & 0x8000 != 0 {
      UnshiftHigh(x);
    } else {
      UnshiftLow(x);
    }
  }

  /** A shift only reads the low 16 bits of the register */
  lemma ShiftLow16(x: bv32)
    ensures Shift(x) == Shift(x & 0xFFFF)
  {
  }

  /** A shift loses no information about the 16-bit register */
  lemma ShiftInjective(x: bv32, y: bv32)
    requires Shift(x) == Shift(y)
    ensures x & 0xFFFF == y & 0xFFFF
  {
    UnshiftShift(x);
    UnshiftShift(y);
  }

  lemma Within16(v: bv32)
    requires v <= 0xFFFF
    ensures v & 0xFFFF == v
  {
  }

  /** Registers that agree after one or more shifts agreed on their low 16 bits before */
  lemma {:induction false} ShiftsInjective(x: bv32, y: bv32, k: nat)
    requires 1 <= k
    requires Shifts(x, k) == Shifts(y, k)
    ensures x & 0xFFFF == y & 0xFFFF
    decreases k
  {
    if k == 1 {
      ShiftInjective(x, y);
    } else {
      var u, v := Shifts(x, k - 1), Shifts(y, k - 1);
      ShiftInjective(u, v);
      Within16(u);
      Within16(v);
      ShiftsInjective(x, y, k - 1);
    }
  }

  lemma MixAgree(crc: bv32, v: bv32, w: bv32)
    requires v & 0xFF == w & 0xFF
    ensures (crc ^ (v << 8)) & 0xFFFF == (crc ^ (w << 8)) & 0xFFFF
  {
  }

  lemma MixSeparates(crc: bv32, v: bv32, w: bv32)
    requires (crc ^ (v << 8)) & 0xFFFF == (crc ^ (w << 8)) & 0xFFFF
    ensures v & 0xFF == w & 0xFF
  {
  }

  lemma MixSameWord(x: bv32, y: bv32, w: bv32)
    requires x <= 0xFFFF && y <= 0xFFFF
    requires (x ^ (w << 8)) & 0xFFFF == (y ^ (w << 8)) & 0xFFFF
    ensures x == y
  {
  }

  /** Updates that agree leave mixed registers that agree on their low 16 bits */
  lemma UpdateWordAgree(x: bv32, v: bv32, y: bv32, w: bv32)
    requires UpdateWord(x, v) == UpdateWord(y, w)
    ensures (x ^ (v << 8)) & 0xFFFF == (y ^ (w << 8)) & 0xFFFF
  {
    ShiftsInjective(x ^ (v << 8), y ^ (w << 8), 8);
  }

  /** Only the low byte of a code reaches the register */
  lemma UpdateWordLowByteOnly(crc: bv32, v: bv32, w: bv32)
    requires v & 0xFF == w & 0xFF
    ensures UpdateWord(crc, v) == UpdateWord(crc, w)
  {
    ShiftsMixAgree(crc, v, w, 8);
  }

  /** Codes with the same low byte leave the same register after one shift */
  lemma ShiftMixAgree(crc: bv32, v: bv32, w: bv32)
    requires v & 0xFF == w & 0xFF
    ensures Shift(crc ^ (v << 8)) == Shift(crc ^ (w << 8))
  {
    ShiftLow16(crc ^ (v << 8));
    ShiftLow16(crc ^ (w << 8));
    MixAgree(crc, v, w);
  }

  lemma {:induction false} ShiftsMixAgree(crc: bv32, v: bv32, w: bv32, k: nat)
    requires 1 <= k
    requires v & 0xFF == w & 0xFF
    ensures Shifts(crc ^ (v << 8), k) == Shifts(crc ^ (w << 8), k)
    decreases k
  {
    if k == 1 {
      ShiftMixAgree(crc, v, w);
    } else {
      ShiftsMixAgree(crc, v, w, k - 1);
    }
  }

  lemma UpdateWordSeparates(crc: bv32, v: bv32, w: bv32)
    requires UpdateWord(crc, v) == UpdateWord(crc, w)
    ensures v & 0xFF == w & 0xFF
  {
    UpdateWordAgree(crc, v, crc, w);
    MixSeparates(crc, v, w);
  }

  lemma UpdateWordInjective(x: bv32, y: bv32, w: bv32)
    requires x <= 0xFFFF && y <= 0xFFFF
    requires UpdateWord(x, w) == UpdateWord(y, w)
    ensures x == y
  {
    UpdateWordAgree(x, w, y, w);
    MixSameWord(x, y, w);
  }

  /** The low byte of a code unit: the only part of it that reaches the register */
  function LowByte(c: CodeUnit): bv32 {
    Bits(c) & 0xFF
  }

  /**
    From the same register, two characters lead to the same register exactly
    when their code units have the same low byte: the high byte of a code
    unit is shifted out of the 16-bit register before it can act.
   */
  lemma UpdateCodeSeesLowByte(crc: bv32, a: CodeUnit, b: CodeUnit)
    ensures UpdateCode(crc, a) == UpdateCode(crc, b) <==> LowByte(a) == LowByte(b)
  {
    if UpdateCode(crc, a) == UpdateCode(crc, b) {
      UpdateWordSeparates(crc, Bits(a), Bits(b));
    } else if LowByte(a) == LowByte(b) {
      UpdateWordLowByteOnly(crc, Bits(a), Bits(b));
    }
  }

  /** The same character takes distinct registers to distinct registers */
  lemma UpdateCodeInjective(x: bv32, y: bv32, c: CodeUnit)
    requires x <= 0xFFFF && y <= 0xFFFF
    requires UpdateCode(x, c) == UpdateCode(y, c)
    ensures x == y
  {
    UpdateWordInjective(x, y, Bits(c));
  }

  /** The same text read from distinct registers leaves distinct registers */
  lemma {:induction false} RegisterInjective(x: bv32, y: bv32, m: seq<CodeUnit>)
    requires x <= 0xFFFF && y <= 0xFFFF
    requires Register(x, m) == Register(y, m)
    ensures x == y
    decreases |m|
  {
    if m != [] {
      var p := m[..|m| - 1];
      UpdateCodeInjective(Register(x, p), Register(y, p), m[|m| - 1]);
      RegisterInjective(x, y, p);
    }
  }

  /**
    Substituting one character by another whose code unit has a different
    low byte always changes the register, wherever it happens in the text.
   */
  lemma SubstitutionChangesRegister(p: seq<CodeUnit>, a: CodeUnit, b: CodeUnit, s: seq<CodeUnit>)
    requires LowByte(a) != LowByte(b)
    ensures Register(Init, p + [a] + s) != Register(Init, p + [b] + s)
  {
    var r := Register(Init, p);
    RegisterAppend(Init, p + [a], s);
    RegisterAppend(Init, p + [b], s);
    RegisterSnoc(Init, p, a);
    RegisterSnoc(Init, p, b);
    if Register(Init, p + [a] + s) == Register(Init, p + [b] + s) {
      RegisterInjective(UpdateCode(r, a), UpdateCode(r, b), s);
      UpdateCodeSeesLowByte(r, a, b);
    }
  }

  /** Equal trailers come from equal registers */
  lemma ChecksumRegister(s: string, t: string)
    requires IsCodeUnits(s) && IsCodeUnits(t)
    requires Checksum(s) == Checksum(t)
    ensures Register(Init, Codes(s)) == Register(Init, Codes(t))
  {
    IntRoundTrip(Register(Init, Codes(s)));
    IntRoundTrip(Register(Init, Codes(t)));
  }

  /**
    Substituting one character of a text by another whose code unit has a
    different low byte always changes its four-character checksum.
   */
  lemma ChecksumDetectsSubstitution(p: string, a: char, b: char, s: string)
    requires IsCodeUnits(p) && IsCodeUnits(s)
    requires a as int < 0x1_0000 && b as int < 0x1_0000
    requires LowByte(a as int) != LowByte(b as int)
    ensures IsCodeUnits(p + [a] + s) && IsCodeUnits(p + [b] + s)
    ensures Checksum(p + [a] + s) != Checksum(p + [b] + s)
  {
    CodesAppend(p, [a]);
    CodesAppend(p + [a], s);
    CodesAppend(p, [b]);
    CodesAppend(p + [b], s);
    assert Codes([a]) == [a as int] && Codes([b]) == [b as int];
    SubstitutionChangesRegister(Codes(p), a as int, b as int, Codes(s));
    if Checksum(p + [a] + s) == Checksum(p + [b] + s) {
      ChecksumRegister(p + [a] + s, p + [b] + s);
    }
  }

  /* The catalogue check value of CRC-16/CCITT-FALSE: "123456789" gives 0x29B1 */

  lemma RegisterThree(crc: bv32, a: CodeUnit, b: CodeUnit, c: CodeUnit)
    ensures Register(crc, [a, b, c]) == UpdateCode(UpdateCode(UpdateCode(crc, a), b), c)
  {
    RegisterSnoc(crc, [], a);
    RegisterSnoc(crc, [a], b);
    RegisterSnoc(crc, [a, b], c);
    assert [] + [a] == [a] && [a] + [b] == [a, b] && [a, b] + [c] == [a, b, c];
  }

  lemma CheckDigitOne()
    ensures UpdateCode(0xFFFF, 0x31) == 0xC782
  {
    assert Bits(0x31) == 0x31;
    assert 0xFFFF ^ (Bits(0x31) << 8) == 0xCEFF;
  }

  lemma CheckDigitTwo()
    ensures UpdateCode(0xC782, 0x32) == 0x3DBA
  {
    assert Bits(0x32) == 0x32;
    assert 0xC782 ^ (Bits(0x32) << 8) == 0xF582;
  }

  lemma CheckDigitThree()
    ensures UpdateCode(0x3DBA, 0x33) == 0x5BCE
  {
    assert Bits(0x33) == 0x33;
    assert 0x3DBA ^ (Bits(0x33) << 8) == 0x0EBA;
  }

  lemma CheckDigitFour()
    ensures UpdateCode(0x5BCE, 0x34) == 0x5349
  {
    assert Bits(0x34) == 0x34;
    assert 0x5BCE ^ (Bits(0x34) << 8) == 0x6FCE;
  }

  lemma CheckDigitFive()
    ensures UpdateCode(0x5349, 0x35) == 0x4560
  {
    assert Bits(0x35) == 0x35;
    assert 0x5349 ^ (Bits(0x35) << 8) == 0x6649;
  }

  lemma CheckDigitSix()
    ensures UpdateCode(0x4560, 0x36) == 0x2EF4
  {
    assert Bits(0x36) == 0x36;
    assert 0x4560 ^ (Bits(0x36) << 8) == 0x7360;
  }

  lemma CheckDigitSeven()
    ensures UpdateCode(0x2EF4, 0x37) == 0x7718
  {
    assert Bits(0x37) == 0x37;
    assert 0x2EF4 ^ (Bits(0x37) << 8) == 0x19F4;
  }

  lemma CheckDigitEight()
    ensures UpdateCode(0x7718, 0x38) == 0xA12B
  {
    assert Bits(0x38) == 0x38;
    assert 0x7718 ^ (Bits(0x38) << 8) == 0x4F18;
  }

  lemma CheckDigitNine()
    ensures UpdateCode(0xA12B, 0x39) == 0x29B1
  {
    assert Bits(0x39) == 0x39;
    assert 0xA12B ^ (Bits(0x39) << 8) == 0x982B;
  }

  lemma CheckDigitsOneToThree()
    ensures Register(0xFFFF, [0x31, 0x32, 0x33]) == 0x5BCE
  {
    RegisterThree(0xFFFF, 0x31, 0x32, 0x33);
    CheckDigitOne();
    CheckDigitTwo();
    CheckDigitThree();
  }

  lemma CheckDigitsFourToSix()
    ensures Register(0x5BCE, [0x34, 0x35, 0x36]) == 0x2EF4
  {
    RegisterThree(0x5BCE, 0x34, 0x35, 0x36);
    CheckDigitFour();
    CheckDigitFive();
    CheckDigitSix();
  }

  lemma CheckDigitsSevenToNine()
    ensures Register(0x2EF4, [0x37, 0x38, 0x39]) == 0x29B1
  {
    RegisterThree(0x2EF4, 0x37, 0x38, 0x39);
    CheckDigitSeven();
    CheckDigitEight();
    CheckDigitNine();
  }

  /** The register after "123456789" */
  lemma CheckRegister()
    ensures IsCodeUnits("123456789")
    ensures Register(Init, Codes("123456789")) == 0x29B1
  {
    var m := Codes("123456789");
    assert m == [0x31, 0x32, 0x33] + [0x34, 0x35, 0x36] + [0x37, 0x38, 0x39];
    CheckDigitsOneToThree();
    CheckDigitsFourToSix();
    CheckDigitsSevenToNine();
    RegisterAppend(Init, [0x31, 0x32, 0x33] + [0x34, 0x35, 0x36], [0x37, 0x38, 0x39]);
    RegisterAppend(Init, [0x31, 0x32, 0x33], [0x34, 0x35, 0x36]);
  }

  /** The catalogue check value, as the trailer `crc16` renders */
  lemma CheckValue()
    ensures IsCodeUnits("123456789")
    ensures Checksum("123456789") == "29B1"
  {
    CheckRegister();
    assert ToBase(0x29B1, 16) == "29b1";
    assert ToUpper("29b1") == "29B1";
  }
}

=== FILE: numerals.dfy ===
/**
  Positional numerals as JavaScript renders them: `Number.prototype.toString(base)`
  for non-negative integers, `String.prototype.padStart` and an ASCII `toUpperCase`,
  together with the positional reader that inverts them.
 */
module Numerals {

  /** An ASCII decimal digit: the complement of the `\D` class of a JavaScript regex without the `u` flag */
  predicate IsDigit(c: char) {
    '0' <= c <= '9'
  }

  predicate IsDigits(s: string) {
    forall i :: 0 <= i < |s| ==> IsDigit(s[i])
  }

  /** The digit `toString` writes for a value below 16: 0-9, then a-f */
  function LowerDigit(d: nat): char
    requires d < 16
  {
    if d < 10 then ('0' as int + d) as char else ('a' as int + d - 10) as char
  }

  /** A digit of `n.toString(base)`: 0-9 or a lower-case letter, valued below `base` */
  predicate IsLowerDigit(c: char, base: nat) {
    ('0' <= c <= '9' || 'a' <= c <= 'f') && DigitValue(c) < base
  }

  predicate IsLowerNumeral(s: string, base: nat) {
    forall i :: 0 <= i < |s| ==> IsLowerDigit(s[i], base)
  }

  predicate IsUpperHexDigit(c: char) {
    '0' <= c <= '9' || 'A' <= c <= 'F'
  }

  predicate IsUpperHex(s: string) {
    forall i :: 0 <= i < |s| ==> IsUpperHexDigit(s[i])
  }

  /** Value of a digit character in any base up to 16, letters in either case */
  function DigitValue(c: char): nat {
    if '0' <= c <= '9' then c as int - '0' as int
    else if 'a' <= c <= 'f' then c as int - 'a' as int + 10
    else if 'A' <= c <= 'F' then c as int - 'A' as int + 10
    else 0
  }

  /** Reads a string of digits, most significant first */
  function FromBase(s: string, base: nat): nat {
    if s == [] then 0 else FromBase(s[..|s| - 1], base) * base + DigitValue(s[|s| - 1])
  }

  function Pow(base: nat, k: nat): nat {
    if k == 0 then 1 else base * Pow(base, k - 1)
  }

  lemma LowerDigitValue(d: nat)
    requires d < 16
    ensures DigitValue(LowerDigit(d)) == d
    ensures '0' <= LowerDigit(d) <= '9' || 'a' <= LowerDigit(d) <= 'f'
  {
  }

  /**
    `n.toString(base)`: the digits of `n`, most significant first, lower-case
    letters, "0" for zero and no other leading zero.
   */
  function ToBase(n: nat, base: nat): (r: string)
    requires 2 <= base <= 16
    ensures 1 <= |r|
    ensures IsLowerNumeral(r, base)
    decreases n
  {
    LowerDigitValue(n % base);
    if n < base then
      [LowerDigit(n)]
    else
      DivModFacts(n, base);
      var t := ToBase(n / base, base);
      LowerNumeralSnoc(t, LowerDigit(n % base), base);
      t + [LowerDigit(n % base)]
  }

  /** The numeral starts with '0' only when it is the numeral of zero */
  lemma {:induction false} ToBaseLeading(n: nat, base: nat)
    requires 2 <= base <= 16
    ensures ToBase(n, base)[0] == '0' <==> n == 0
    decreases n
  {
    if n < base {
      LowerDigitValue(n);
    } else {
      DivModFacts(n, base);
      ToBaseLeading(n / base, base);
      assert ToBase(n, base)[0] == ToBase(n / base, base)[0];
    }
  }

  /** Reading the numeral back gives the number */
  lemma {:induction false} ToBaseValue(n: nat, base: nat)
    requires 2 <= base <= 16
    ensures FromBase(ToBase(n, base), base) == n
    decreases n
  {
    if n < base {
      LowerDigitValue(n);
      FromBaseSnoc([], LowerDigit(n), base);
      assert [] + [LowerDigit(n)] == ToBase(n, base);
    } else {
      var t := ToBase(n / base, base);
      assert ToBase(n, base) == t + [LowerDigit(n % base)];
      DivModFacts(n, base);
      ToBaseValue(n / base, base);
      ToBaseStep(t, n, base);
    }
  }

  lemma ToBaseStep(t: string, n: nat, base: nat)
    requires 2 <= base <= n && base <= 16
    requires FromBase(t, base) == n / base
    ensures FromBase(t + [LowerDigit(n % base)], base) == n
  {
    LowerDigitValue(n % base);
    FromBaseSnoc(t, LowerDigit(n % base), base);
    DivModFacts(n, base);
  }

  lemma LowerNumeralSnoc(t: string, c: char, base: nat)
    requires IsLowerNumeral(t, base) && IsLowerDigit(c, base)
    ensures IsLowerNumeral(t + [c], base)
  {
    assert forall i :: 0 <= i < |t| ==> (t + [c])[i] == t[i];
  }

  /** Appending a digit multiplies the value by the base and adds the digit */
  lemma FromBaseSnoc(s: string, c: char, base: nat)
    ensures FromBase(s + [c], base) == FromBase(s, base) * base + DigitValue(c)
  {
    assert (s + [c])[..|s|] == s;
  }

  lemma DivModFacts(n: nat, base: nat)
    requires 2 <= base <= n
    ensures n == (n / base) * base + n % base
    ensures 1 <= n / base < n
  {
  }

  /** A numeral is short exactly when the number is small */
  lemma {:induction false} ToBaseLength(n: nat, base: nat, k: nat)
    requires 2 <= base <= 16
    requires 1 <= k
    ensures n < Pow(base, k) <==> |ToBase(n, base)| <= k
    decreases k
  {
    var r := ToBase(n, base);
    if n < base {
      assert |r| == 1;
      PowAtLeastBase(base, k);
    } else {
      DivModFacts(n, base);
      assert |r| == |ToBase(n / base, base)| + 1;
      if k == 1 {
        assert Pow(base, k) == base;
      } else {
        ToBaseLength(n / base, base, k - 1);
        DivBound(n, base, Pow(base, k - 1));
        assert Pow(base, k) == base * Pow(base, k - 1);
      }
    }
  }

  lemma PowAtLeastBase(base: nat, k: nat)
    requires 2 <= base && 1 <= k
    ensures base <= Pow(base, k)
    decreases k
  {
    if k > 1 {
      PowAtLeastBase(base, k - 1);
    }
  }

  lemma DivBound(n: nat, base: nat, p: nat)
    requires 2 <= base
    ensures n / base < p <==> n < base * p
  {
    var q, m := n / base, n % base;
    assert n == q * base + m && m < base;
    if q < p {
      assert q * base <= (p - 1) * base by { MulMono(q, p - 1, base); }
    } else {
      assert p * base <= q * base by { MulMono(p, q, base); }
    }
  }

  lemma MulMono(a: nat, b: nat, c: nat)
    requires a <= b
    ensures a * c <= b * c
  {
  }

  /** `s.padStart(width, fill)` with a one-character fill */
  function PadStart(s: string, width: nat, fill: char): (r: string)
    ensures |r| == if |s| < width then width else |s|
  {
    if |s| < width then seq(width - |s|, _ => fill) + s else s
  }

  /** Leading zeros do not change the value of a numeral */
  lemma {:induction false} FromBaseLeadingZeros(z: string, s: string, base: nat)
    requires forall i :: 0 <= i < |z| ==> z[i] == '0'
    ensures FromBase(z + s, base) == FromBase(s, base)
    decreases |s|
  {
    if s == [] {
      FromBaseZeros(z, base);
      assert z + s == z;
    } else {
      var s' := s[..|s| - 1];
      assert (z + s)[..|z + s| - 1] == z + s';
      FromBaseLeadingZeros(z, s', base);
    }
  }

  lemma {:induction false} FromBaseZeros(z: string, base: nat)
    requires forall i :: 0 <= i < |z| ==> z[i] == '0'
    ensures FromBase(z, base) == 0
    decreases |z|
  {
    if z != [] {
      FromBaseZeros(z[..|z| - 1], base);
    }
  }

  /** ASCII upper-casing of one character, as `toUpperCase` acts on the ASCII range */
  function UpperChar(c: char): char {
    if 'a' <= c <= 'z' then (c as int - 32) as char else c
  }

  function ToUpper(s: string): (r: string)
    ensures |r| == |s|
    ensures forall i :: 0 <= i < |s| ==> r[i] == UpperChar(s[i])
  {
    seq(|s|, i requires 0 <= i < |s| => UpperChar(s[i]))
  }

  /** Upper-casing a numeral keeps its value and turns lower-case hex into upper-case hex */
  lemma {:induction false} ToUpperNumeral(s: string, base: nat)
    requires IsLowerNumeral(s, 16)
    ensures FromBase(ToUpper(s), base) == FromBase(s, base)
    ensures IsUpperHex(ToUpper(s))
    decreases |s|
  {
    var u := ToUpper(s);
    forall i | 0 <= i < |s|
      ensures IsUpperHexDigit(u[i]) && DigitValue(u[i]) == DigitValue(s[i])
    {
      assert IsLowerDigit(s[i], 16);
    }
    if s != [] {
      var s' := s[..|s| - 1];
      assert u[..|u| - 1] == ToUpper(s');
      ToUpperNumeral(s', base);
    }
  }

  /** Padding a numeral with zeros keeps its value */
  lemma ZeroPadValue(s: string, width: nat, base: nat)
    ensures FromBase(PadStart(s, width, '0'), base) == FromBase(s, base)
  {
    var r := PadStart(s, width, '0');
    assert r == r[..|r| - |s|] + s;
    FromBaseLeadingZeros(r[..|r| - |s|], s, base);
  }

  /** Padding with zeros keeps a decimal numeral decimal */
  lemma ZeroPadDigits(s: string, width: nat)
    requires IsDigits(s)
    ensures IsDigits(PadStart(s, width, '0'))
  {
    var r := PadStart(s, width, '0');
    forall i | |r| - |s| <= i < |r| ensures IsDigit(r[i]) {
      assert r[i] == s[i - (|r| - |s|)];
    }
  }

  /** Padding with zeros keeps an upper-case hex numeral upper-case hex */
  lemma ZeroPadUpperHex(s: string, width: nat)
    requires IsUpperHex(s)
    ensures IsUpperHex(PadStart(s, width, '0'))
  {
    var r := PadStart(s, width, '0');
    forall i | |r| - |s| <= i < |r| ensures IsUpperHexDigit(r[i]) {
      assert r[i] == s[i - (|r| - |s|)];
    }
  }

  /** The digits of `n.toString()` are ASCII digits */
  lemma DecimalIsDigits(s: string)
    requires IsLowerNumeral(s, 10)
    ensures IsDigits(s)
  {
    forall i | 0 <= i < |s| ensures IsDigit(s[i]) {
      assert IsLowerDigit(s[i], 10);
    }
  }

  /**
    `n.toString().padStart(2, '0')`: always a decimal numeral, exactly two
    characters long precisely when `n` is at most 99.
   */
  function Pad2(n: nat): (r: string)
    ensures IsDigits(r)
    ensures |r| == 2 <==> n <= 99
    ensures 2 <= |r|
  {
    var t := ToBase(n, 10);
    ToBaseLength(n, 10, 2);
    DecimalIsDigits(t);
    ZeroPadDigits(t, 2);
    PadStart(t, 2, '0')
  }

  /** The padded numeral still reads as `n` */
  lemma Pad2Value(n: nat)
    ensures FromBase(Pad2(n), 10) == n
  {
    ToBaseValue(n, 10);
    ZeroPadValue(ToBase(n, 10), 2, 10);
  }
}

=== FILE: payload.dfy ===
/**
  `generatePromptPayPayload`: the EMVCo merchant-presented payload of a
  PromptPay QR code for a mobile number and an optional amount. The data
  objects are written in a fixed order and the text is closed by the header
  of object 63 and the CRC-16 of everything before the checksum itself.
 */
module PromptPay {
  import opened Numerals
  import opened Wrappers
  import opened Emv
  import opened Phone
  import opened Crc16
  import opened Amount

  /** The application identifier of PromptPay, sub-object 00 of object 29 */
  const Guid: string := "A000000677010111"

  /**
    The proxy the payload carries: the formatted phone, with a 6 put in front
    when formatting left exactly 12 digits. In terms of the stripped digits
    `d`, every number that formatting turns into 12 digits, and every
    12-digit number, comes out with 13 digits starting "666" or "6".
   */
  function Mobile(phone: string): (r: string)
    ensures IsDigits(r)
    ensures var d := StripNonDigits(phone);
      && (|d| == 10 && "0" <= d ==> r == "6668" + d[1..])
      && (|d| == 11 && "66" <= d ==> r == "6668" + d[2..])
      && (|d| == 12 ==> r == "6" + d)
      && (|d| == 9 && "8" <= d ==> r == "6668" + d)
      && (!(|d| == 10 && "0" <= d) && !(|d| == 11 && "66" <= d) && |d| != 12 && !(|d| == 9 && "8" <= d) ==> r == d)
  {
    var mobile := FormatPhone(phone);
    MobileCases(phone);
    if |mobile| == 12 then "6" + mobile else mobile
  }

  lemma MobileCases(phone: string)
    ensures var d, f := StripNonDigits(phone), FormatPhone(phone);
      && (|d| == 10 && "0" <= d ==> |f| == 12 && "6" + f == "6668" + d[1..])
      && (|d| == 11 && "66" <= d ==> |f| == 12 && "6" + f == "6668" + d[2..])
      && (|d| == 12 ==> f == d)
      && (|d| == 9 && "8" <= d ==> |f| == 12 && "6" + f == "6668" + d)
      && (!(|d| == 10 && "0" <= d) && !(|d| == 11 && "66" <= d) && |d| != 12 && !(|d| == 9 && "8" <= d) ==> f == d)
  {
    var d, f := StripNonDigits(phone), FormatPhone(phone);
    if |d| == 10 && "0" <= d {
      PrefixSix(d[1..]);
    } else if |d| == 11 && "66" <= d {
      PrefixSix(d[2..]);
    } else if |d| == 9 && "8" <= d {
      PrefixSix(d);
    }
  }

  lemma PrefixSix(x: string)
    ensures "6" + ("668" + x) == "6668" + x
  {
  }

  /** The value of object 29: the identifier of PromptPay, then the proxy as object 01 */
  function MerchantAccount(mobile: string): (r: string)
    ensures r == "0016" + Guid + Tlv("01", mobile)
    ensures |mobile| <= 99 ==> |r| == 24 + |mobile|
  {
    GuidObject();
    Tlv("00", Guid) + Tlv("01", mobile)
  }

  /** Object 54 is written only for a present, non-zero amount, as `if (amount)` decides */
  function AmountTag(amount: Option<nat>): (r: string)
    ensures r == [] <==> amount == None || amount == Some(0)
    ensures amount.Some? && amount.value != 0 ==> r == Tlv("54", AmountText(amount.value))
  {
    match amount
    case Some(satang) => if satang != 0 then Tlv("54", AmountText(satang)) else []
    case None => []
  }

  /** Everything the checksum covers: the data objects in order, then the header of object 63 */
  function Body(phone: string, amount: Option<nat>): string {
    Tlv("00", "01") + Tlv("01", "12") + Tlv("29", MerchantAccount(Mobile(phone)))
      + Tlv("53", "764") + Tlv("58", "TH") + AmountTag(amount) + "6304"
  }

  /**
    What a reader of the payload checks: the text ends with the header of
    object 63 and four characters that are the checksum of all that precedes them.
   */
  predicate ChecksumValid(p: string) {
    && 8 <= |p|
    && p[|p| - 8..|p| - 4] == "6304"
    && IsCodeUnits(p[..|p| - 4])
    && p[|p| - 4..] == Checksum(p[..|p| - 4])
  }

  /**
    `generatePromptPayPayload(phone, amount)`: format version "01", point of
    initiation "12" (dynamic), the PromptPay account with the proxy, currency 764 (the
    baht), country TH, the amount when there is one, and the checksum.
   */
  function PromptPayPayload(phone: string, amount: Option<nat>): (p: string)
    ensures ChecksumValid(p)
    ensures p[..|p| - 4] == "000201" + "010212" + Tlv("29", MerchantAccount(Mobile(phone)))
      + "5303764" + "5802TH" + AmountTag(amount) + "6304"
  {
    var body := Body(phone, amount);
    BodyShape(phone, amount);
    BodyIsCodeUnits(phone, amount);
    var p := body + Checksum(body);
    assert p[..|p| - 4] == body;
    assert p[|p| - 8..|p| - 4] == body[|body| - 4..];
    p
  }

  lemma GuidObject()
    ensures Tlv("00", Guid) == "0016" + Guid
  {
    assert ToBase(16, 10) == ToBase(1, 10) + "6";
  }

  /** The objects whose values never change, as the characters they are written as */
  lemma FixedObjects()
    ensures Tlv("00", "01") == "000201"
    ensures Tlv("01", "12") == "010212"
    ensures Tlv("53", "764") == "5303764"
    ensures Tlv("58", "TH") == "5802TH"
  {
  }

  lemma BodyShape(phone: string, amount: Option<nat>)
    ensures Body(phone, amount) == "000201" + "010212" + Tlv("29", MerchantAccount(Mobile(phone)))
      + "5303764" + "5802TH" + AmountTag(amount) + "6304"
    ensures Body(phone, amount)[|Body(phone, amount)| - 4..] == "6304"
  {
    FixedObjects();
  }

  lemma DigitsAreCodeUnits(s: string)
    requires IsDigits(s)
    ensures IsCodeUnits(s)
  {
    forall i | 0 <= i < |s| ensures s[i] as int < 0x1_0000 {
      assert IsDigit(s[i]);
    }
  }

  lemma TlvCodeUnits(id: string, value: string)
    requires IsCodeUnits(id) && IsCodeUnits(value)
    ensures IsCodeUnits(Tlv(id, value))
  {
    DigitsAreCodeUnits(Pad2(|value|));
    CodeUnitsAppend(id, Pad2(|value|));
    CodeUnitsAppend(id + Pad2(|value|), value);
  }

  lemma AmountTagCodeUnits(amount: Option<nat>)
    ensures IsCodeUnits(AmountTag(amount))
  {
    if amount.Some? && amount.value != 0 {
      var t := AmountText(amount.value);
      DigitsAreCodeUnits(t[..|t| - 3]);
      DigitsAreCodeUnits(t[|t| - 2..]);
      assert t == t[..|t| - 3] + ['.'] + t[|t| - 2..];
      CodeUnitsAppend(t[..|t| - 3], ['.']);
      CodeUnitsAppend(t[..|t| - 3] + ['.'], t[|t| - 2..]);
      TlvCodeUnits("54", t);
    }
  }

  /** Every character of the checksummed text is a single UTF-16 code unit */
  lemma BodyIsCodeUnits(phone: string, amount: Option<nat>)
    ensures IsCodeUnits(Body(phone, amount))
  {
    var account := MerchantAccount(Mobile(phone));
    AccountCodeUnits(Mobile(phone));
    TlvCodeUnits("29", account);
    FixedObjectsCodeUnits();
    AmountTagCodeUnits(amount);
    AppendSevenCodeUnits(Tlv("00", "01"), Tlv("01", "12"), Tlv("29", account), Tlv("53", "764"), Tlv("58", "TH"), AmountTag(amount), "6304");
  }

  lemma FixedObjectsCodeUnits()
    ensures IsCodeUnits(Tlv("00", "01")) && IsCodeUnits(Tlv("01", "12"))
    ensures IsCodeUnits(Tlv("53", "764")) && IsCodeUnits(Tlv("58", "TH"))
    ensures IsCodeUnits("6304")
  {
    TlvCodeUnits("00", "01");
    TlvCodeUnits("01", "12");
    TlvCodeUnits("53", "764");
    TlvCodeUnits("58", "TH");
  }

  lemma AppendSevenCodeUnits(a: string, b: string, c: string, d: string, e: string, f: string, g: string)
    requires IsCodeUnits(a) && IsCodeUnits(b) && IsCodeUnits(c) && IsCodeUnits(d)
    requires IsCodeUnits(e) && IsCodeUnits(f) && IsCodeUnits(g)
    ensures IsCodeUnits(a + b + c + d + e + f + g)
  {
    CodeUnitsAppend(a, b);
    CodeUnitsAppend(a + b, c);
    CodeUnitsAppend(a + b + c, d);
    CodeUnitsAppend(a + b + c + d, e);
    CodeUnitsAppend(a + b + c + d + e, f);
    CodeUnitsAppend(a + b + c + d + e + f, g);
  }

  lemma AccountCodeUnits(mobile: string)
    requires IsDigits(mobile)
    ensures IsCodeUnits(MerchantAccount(mobile))
  {
    DigitsAreCodeUnits(mobile);
    TlvCodeUnits("00", Guid);
    TlvCodeUnits("01", mobile);
    CodeUnitsAppend(Tlv("00", Guid), Tlv("01", mobile));
  }

  /** A zero amount is left out just like a missing one: both give the same payload */
  lemma ZeroAmountOmitted(phone: string)
    ensures PromptPayPayload(phone, None) == PromptPayPayload(phone, Some(0))
  {
    assert AmountTag(None) == AmountTag(Some(0)) == [];
    assert Body(phone, None) == Body(phone, Some(0));
  }

  /**
    Any local number 0XXXXXXXXX (for instance 0902748581) for 100 baht: the
    proxy gets the 13-digit form 6668XXXXXXXXX, and the checksummed text is
    exactly the objects 00 "01", 01 "12", 29 (37 characters), 53 "764",
    58 "TH", 54 "100.00" and the header of 63.
   */
  lemma LocalNumberPayload(rest: string)
    requires |rest| == 9 && IsDigits(rest)
    ensures Mobile("0" + rest) == "6668" + rest
    ensures var p := PromptPayPayload("0" + rest, Some(10000));
      p[..|p| - 4] == "000201" + "010212" + "2937" + "0016A000000677010111" + "0113" + "6668" + rest
        + "5303764" + "5802TH" + "5406100.00" + "6304"
  {
    LocalMobile(rest);
    HundredBaht();
    LocalAccount("6668" + rest);
    Flatten("000201", "010212", "2937", "0016A000000677010111", "0113", "6668", rest,
            "5303764", "5802TH", "5406100.00", "6304");
  }

  lemma Flatten(a: string, b: string, t1: string, t2: string, t3: string, t4: string, t5: string,
                c: string, d: string, e: string, f: string)
    ensures a + b + (t1 + t2 + t3 + (t4 + t5)) + c + d + e + f == a + b + t1 + t2 + t3 + t4 + t5 + c + d + e + f
  {
  }

  /** A 10-digit local number loses its 0 and gains 6668 */
  lemma LocalMobile(rest: string)
    requires |rest| == 9 && IsDigits(rest)
    ensures Mobile("0" + rest) == "6668" + rest
  {
    var d := "0" + rest;
    assert IsDigits(d) by {
      forall i | 0 <= i < |d| ensures IsDigit(d[i]) {
        if 0 < i {
          assert d[i] == rest[i - 1];
        }
      }
    }
    assert StripNonDigits(d) == d;
    assert d[1..] == rest;
  }

  lemma LocalAccount(mobile: string)
    requires |mobile| == 13
    ensures Tlv("29", "0016" + Guid + Tlv("01", mobile)) == "2937" + "0016A000000677010111" + "0113" + mobile
  {
    Pad2Examples();
    TlvParts("01", "13", mobile);
    var account := "0016" + Guid + Tlv("01", mobile);
    assert account == "0016A000000677010111" + ("0113" + mobile);
    TlvParts("29", "37", account);
  }

  lemma Pad2Examples()
    ensures Pad2(13) == "13" && Pad2(37) == "37"
  {
    assert ToBase(13, 10) == ToBase(1, 10) + "3";
    assert ToBase(37, 10) == ToBase(3, 10) + "7";
  }

  lemma HundredBaht()
    ensures AmountText(10000) == "100.00"
    ensures AmountTag(Some(10000)) == "5406100.00"
  {
    ExampleAmount();
    assert Pad2(6) == "06";
  }

  lemma ExampleAmount()
    ensures AmountText(10000) == "100.00"
  {
    assert ToBase(100, 10) == ToBase(10, 10) + "0";
    assert ToBase(10, 10) == ToBase(1, 10) + "0";
    assert Pad2(0) == "00";
  }

  /**
    A reader catches the substitution of any one character before the
    checksum by a character with a different low byte: the four checksum
    characters no longer match.
   */
  lemma SubstitutionDetected(p: string, i: nat, c: char)
    requires ChecksumValid(p) && i < |p| - 4
    requires c as int < 0x1_0000 && p[i] as int < 0x1_0000
    requires LowByte(c as int) != LowByte(p[i] as int)
    ensures !ChecksumValid(p[i := c])
  {
    var q := p[i := c];
    var body := p[..|p| - 4];
    SpliceParts(p, i, c);
    CodeUnitsSlice(body, 0, i);
    CodeUnitsSlice(body, i + 1, |body|);
    ChecksumDetectsSubstitution(body[..i], c, p[i], body[i + 1..]);
  }

  /** Replacing one character before the last four changes the text before them and nothing after */
  lemma SpliceParts(p: string, i: nat, c: char)
    requires i < |p| - 4
    ensures var body, q := p[..|p| - 4], p[i := c];
      && |q| == |p|
      && body == body[..i] + [p[i]] + body[i + 1..]
      && q[..|q| - 4] == body[..i] + [c] + body[i + 1..]
      && q[|q| - 4..] == p[|p| - 4..]
  {
  }

  lemma CodeUnitsSlice(s: string, lo: nat, hi: nat)
    requires IsCodeUnits(s) && lo <= hi <= |s|
    ensures IsCodeUnits(s[lo..hi])
  {
    forall k | 0 <= k < hi - lo ensures s[lo..hi][k] as int < 0x1_0000 {
      assert s[lo..hi][k] == s[lo + k];
    }
  }

  /**
    Above 75 proxy digits the value of object 29 is longer than 99
    characters: the assembler still writes it, with a three-digit length, and
    a reader no longer finds object 29 where it was written.
   */
  lemma LongProxyBreaksFraming(phone: string, rest: string)
    requires 75 < |Mobile(phone)|
    ensures var account := MerchantAccount(Mobile(phone));
      99 < |account| && ParseObject(Tlv("29", account) + rest) != Some((DataObject("29", account), rest))
  {
    var m := Mobile(phone);
    var account := MerchantAccount(m);
    assert |Tlv("01", m)| >= 4 + |m|;
    assert |account| >= 20 + |Tlv("01", m)|;
    OversizedValueBreaksFraming("29", account, rest);
  }

  /** The objects of a payload, in the order the assembler writes them; `crc` is the value of object 63 */
  function PayloadObjects(phone: string, amount: Option<nat>, crc: string): seq<DataObject> {
    LeadingObjects(MerchantAccount(Mobile(phone))) + AmountObjects(amount) + [DataObject("63", crc)]
  }

  /** The five objects every payload starts with, around the value of object 29 */
  function LeadingObjects(account: string): seq<DataObject> {
    [DataObject("00", "01"), DataObject("01", "12"), DataObject("29", account),
     DataObject("53", "764"), DataObject("58", "TH")]
  }

  function AmountObjects(amount: Option<nat>): seq<DataObject> {
    if amount == None || amount == Some(0) then [] else [DataObject("54", AmountText(amount.value))]
  }

  /**
    Whenever the proxy has at most 75 digits and the amount at most 96
    integer digits, a reader splits the payload back into exactly the objects
    written: 00, 01, 29, 53, 58, then 54 when there is an amount, then 63
    holding the checksum; and the value of object 29 splits into the
    identifier of PromptPay and the proxy.
   */
  lemma PayloadLayout(phone: string, amount: Option<nat>)
    requires |Mobile(phone)| <= 75
    requires amount.Some? ==> amount.value < 100 * Pow(10, 96)
    ensures var p := PromptPayPayload(phone, amount);
      ParseObjects(p) == Some(PayloadObjects(phone, amount, p[|p| - 4..]))
    ensures ParseObjects(MerchantAccount(Mobile(phone))) == Some([DataObject("00", Guid), DataObject("01", Mobile(phone))])
  {
    var p := PromptPayPayload(phone, amount);
    var crc := p[|p| - 4..];
    var objs := PayloadObjects(phone, amount, crc);
    PayloadSplit(phone, amount);
    PayloadFramable(phone, amount, crc);
    EncodeBody(phone, amount, crc);
    ParseEncodeObjects(objs);
    AccountLayout(Mobile(phone));
  }

  /** The payload is the checksummed text followed by the four checksum characters */
  lemma PayloadSplit(phone: string, amount: Option<nat>)
    ensures var p := PromptPayPayload(phone, amount);
      8 <= |p| && p == Body(phone, amount) + p[|p| - 4..]
  {
  }

  lemma AccountLayout(mobile: string)
    requires |mobile| <= 99
    ensures ParseObjects(MerchantAccount(mobile)) == Some([DataObject("00", Guid), DataObject("01", mobile)])
  {
    var ds := [DataObject("00", Guid), DataObject("01", mobile)];
    assert AllFramable(ds);
    EncodeTwo(ds[0], ds[1]);
    ParseEncodeObjects(ds);
  }

  lemma PayloadFramable(phone: string, amount: Option<nat>, crc: string)
    requires |Mobile(phone)| <= 75 && |crc| <= 99
    requires amount.Some? ==> amount.value < 100 * Pow(10, 96)
    ensures AllFramable(PayloadObjects(phone, amount, crc))
  {
    var account := MerchantAccount(Mobile(phone));
    LeadingFramable(account);
    AmountFramable(amount);
    assert AllFramable([DataObject("63", crc)]);
    FramableAppend(LeadingObjects(account), AmountObjects(amount));
    FramableAppend(LeadingObjects(account) + AmountObjects(amount), [DataObject("63", crc)]);
  }

  lemma LeadingFramable(account: string)
    requires |account| <= 99
    ensures AllFramable(LeadingObjects(account))
  {
  }

  lemma AmountFramable(amount: Option<nat>)
    requires amount.Some? ==> amount.value < 100 * Pow(10, 96)
    ensures AllFramable(AmountObjects(amount))
  {
    if amount.Some? {
      AmountTextFits(amount.value);
    }
  }

  lemma FramableAppend(ds: seq<DataObject>, es: seq<DataObject>)
    requires AllFramable(ds) && AllFramable(es)
    ensures AllFramable(ds + es)
  {
    forall i | 0 <= i < |ds + es| ensures Framable((ds + es)[i]) {
      if i >= |ds| {
        assert (ds + es)[i] == es[i - |ds|];
      }
    }
  }

  /** Writing the payload's objects one after another gives the checksummed text and the checksum */
  lemma EncodeBody(phone: string, amount: Option<nat>, crc: string)
    requires |crc| == 4
    ensures EncodeObjects(PayloadObjects(phone, amount, crc)) == Body(phone, amount) + crc
  {
    EncodeLayout(MerchantAccount(Mobile(phone)), amount, crc);
  }

  lemma EncodeLayout(account: string, amount: Option<nat>, crc: string)
    requires |crc| == 4
    ensures EncodeObjects(LeadingObjects(account) + AmountObjects(amount) + [DataObject("63", crc)])
      == Tlv("00", "01") + Tlv("01", "12") + Tlv("29", account) + Tlv("53", "764") + Tlv("58", "TH")
         + AmountTag(amount) + "6304" + crc
  {
    var head := Tlv("00", "01") + Tlv("01", "12") + Tlv("29", account) + Tlv("53", "764") + Tlv("58", "TH");
    var tag := AmountTag(amount);
    EncodeObjectsAppend(LeadingObjects(account), AmountObjects(amount));
    EncodeObjectsAppend(LeadingObjects(account) + AmountObjects(amount), [DataObject("63", crc)]);
    EncodeOne(DataObject("63", crc));
    EncodeLeading(account);
    EncodeAmountObjects(amount);
    EncodeChecksumObject(crc);
    assert (head + tag) + ("6304" + crc) == head + tag + "6304" + crc;
  }

  lemma EncodeAmountObjects(amount: Option<nat>)
    ensures EncodeObjects(AmountObjects(amount)) == AmountTag(amount)
  {
    if amount.Some? && amount.value != 0 {
      EncodeOne(DataObject("54", AmountText(amount.value)));
    }
  }

  lemma EncodeChecksumObject(crc: string)
    requires |crc| == 4
    ensures Tlv("63", crc) == "6304" + crc
  {
    assert Pad2(4) == "04";
  }

  lemma EncodeOne(a: DataObject)
    ensures EncodeObjects([a]) == Tlv(a.id, a.value)
  {
    assert [a][1..] == [];
  }

  lemma EncodeTwo(a: DataObject, b: DataObject)
    ensures EncodeObjects([a, b]) == Tlv(a.id, a.value) + Tlv(b.id, b.value)
  {
    assert [a, b][1..] == [b];
    EncodeOne(b);
  }

  lemma EncodeLeading(account: string)
    ensures EncodeObjects(LeadingObjects(account))
      == Tlv("00", "01") + Tlv("01", "12") + Tlv("29", account) + Tlv("53", "764") + Tlv("58", "TH")
  {
    var ds := LeadingObjects(account);
    EncodeFive(ds[0], ds[1], ds[2], ds[3], ds[4]);
  }

  lemma EncodeFive(a: DataObject, b: DataObject, c: DataObject, d: DataObject, e: DataObject)
    ensures EncodeObjects([a, b, c, d, e])
      == Tlv(a.id, a.value) + Tlv(b.id, b.value) + Tlv(c.id, c.value) + Tlv(d.id, d.value) + Tlv(e.id, e.value)
  {
    var ta, tb, tc, td, te := Tlv(a.id, a.value), Tlv(b.id, b.value), Tlv(c.id, c.value), Tlv(d.id, d.value), Tlv(e.id, e.value);
    EncodeTwo(d, e);
    EncodeCons(c, [d, e]);
    EncodeCons(b, [c, d, e]);
    EncodeCons(a, [b, c, d, e]);
    Associate(ta, tb, tc, td, te);
  }

  lemma EncodeCons(a: DataObject, ds: seq<DataObject>)
    ensures EncodeObjects([a] + ds) == Tlv(a.id, a.value) + EncodeObjects(ds)
  {
    assert ([a] + ds)[1..] == ds;
  }

  lemma Associate(a: string, b: string, c: string, d: string, e: string)
    ensures a + (b + (c + (d + e))) == a + b + c + d + e
  {
  }
}

=== FILE: phone.dfy ===
/**
  `formatPhone`: turns a Thai mobile number written in any human format into
  the digit string used as the PromptPay proxy.
 */
module Phone {
  import opened Numerals

  /** `phone.replace(/\D/g, '')`: the ASCII digits of `phone`, in order */
  function StripNonDigits(phone: string): (r: string)
    ensures IsDigits(r)
    ensures |r| <= |phone|
    ensures IsDigits(phone) ==> r == phone
    ensures forall c {:trigger multiset(r)[c]} :: IsDigit(c) ==> multiset(r)[c] == multiset(phone)[c]
  {
    if phone == [] then []
    else
      assert phone == [phone[0]] + phone[1..];
      (if IsDigit(phone[0]) then [phone[0]] else []) + StripNonDigits(phone[1..])
  }

  /** One character survives stripping exactly when it is a digit */
  lemma StripNonDigitsOne(c: char)
    ensures StripNonDigits([c]) == if IsDigit(c) then [c] else []
  {
    assert [c][1..] == [];
  }

  /** Stripping works piece by piece: separators never join or split digit runs */
  lemma {:induction false} StripNonDigitsAppend(a: string, b: string)
    ensures StripNonDigits(a + b) == StripNonDigits(a) + StripNonDigits(b)
    decreases |a|
  {
    if a == [] {
      assert a + b == b;
    } else {
      assert (a + b)[1..] == a[1..] + b;
      StripNonDigitsAppend(a[1..], b);
    }
  }

  /**
    The rewrite chain of `formatPhone`, applied to the stripped digits `d`:
    a 10-digit number starting with 0 loses the 0 and gains "66"; an 11-digit
    number starting with "66" gets an "8" inserted after the "66" (whatever
    digit follows); a 12-digit number starting with "668" is returned at once;
    a 9-digit number starting with 8 gains "668"; anything else is returned as
    it stands.
   */
  function FormatPhone(phone: string): (r: string)
    ensures IsDigits(r)
    ensures var d := StripNonDigits(phone);
      && (|d| == 10 && "0" <= d ==> r == "668" + d[1..])
      && (|d| == 11 && "66" <= d ==> r == "668" + d[2..])
      && (|d| == 12 && "668" <= d ==> r == d)
      && (|d| == 9 && "8" <= d ==> r == "668" + d)
      && (!(|d| == 10 && "0" <= d) && !(|d| == 11 && "66" <= d) && !(|d| == 9 && "8" <= d) ==> r == d)
  {
    var digits := StripNonDigits(phone);
    var digits := if |digits| == 10 && "0" <= digits then "66" + digits[1..] else digits;
    var digits := if |digits| == 11 && "66" <= digits then "668" + digits[2..] else digits;
    if |digits| == 12 && "668" <= digits then digits
    else if |digits| == 9 && "8" <= digits then "668" + digits
    else digits
  }

  /** Formatting an already formatted number changes nothing */
  lemma FormatPhoneIdempotent(phone: string)
    ensures FormatPhone(FormatPhone(phone)) == FormatPhone(phone)
  {
    var d := StripNonDigits(phone);
    var r := FormatPhone(phone);
    assert StripNonDigits(r) == r;
    if |d| == 10 && "0" <= d {
      assert "668" <= r;
    } else if |d| == 11 && "66" <= d {
      assert "668" <= r;
    } else if |d| == 9 && "8" <= d {
      assert "668" <= r;
    }
  }

  /**
    The rule for 11-digit numbers does not look at the digit after "66": a
    local number whose subscriber part already starts with 8 gets that 8 twice.
   */
  lemma LocalEightIsDoubled(rest: string)
    requires |rest| == 8 && IsDigits(rest)
    ensures FormatPhone("08" + rest) == "6688" + rest
  {
    var d := "08" + rest;
    assert IsDigits(d);
    assert d[1..] == "8" + rest;
  }
}

=== FILE: tlv.dfy ===
/**
  EMVCo data objects (ID "ID", Length "LL", Value): the writer `tlv` of the
  payload encoder, and the reader a wallet applies to recover the objects.
 */
module Emv {
  import opened Numerals
  import opened Wrappers

  /** One data object: a two-character identifier and its value */
  datatype DataObject = DataObject(id: string, value: string)

  /** The objects a two-digit length field can frame */
  predicate Framable(d: DataObject) {
    |d.id| == 2 && |d.value| <= 99
  }

  predicate AllFramable(ds: seq<DataObject>) {
    forall i :: 0 <= i < |ds| ==> Framable(ds[i])
  }

  /**
    `tlv(id, value)`: the identifier, the value's length in decimal padded to
    two digits, then the value. Up to 99 characters the header is exactly two
    digits holding the length; beyond that the length field grows and the
    framing is lost.
   */
  function Tlv(id: string, value: string): (r: string)
    ensures |id| + 2 + |value| <= |r|
    ensures |value| <= 99 <==> |r| == |id| + 2 + |value|
    ensures r[..|id|] == id
    ensures r[|r| - |value|..] == value
    ensures |value| <= 99 ==> r[|id|..|id| + 2] == Pad2(|value|) && IsDigits(r[|id|..|id| + 2])
  {
    var r := id + Pad2(|value|) + value;
    assert r[|id|..|id| + |Pad2(|value|)|] == Pad2(|value|);
    r
  }

  /** The two header digits of a framable object read as the length of its value */
  lemma TlvHeader(id: string, value: string)
    requires |value| <= 99
    ensures FromBase(Tlv(id, value)[|id|..|id| + 2], 10) == |value|
  {
    Pad2Value(|value|);
  }

  /** Two-digit decimal numerals are canonical: the value determines the digits */
  lemma TwoDigitsCanonical(t: string)
    requires |t| == 2 && IsDigits(t)
    ensures Pad2(FromBase(t, 10)) == t
  {
    var n := FromBase(t, 10);
    TwoDigitValue(t);
    Pad2Value(n);
    SameTwoDigitNumerals(Pad2(n), t);
  }

  /** Two two-digit numerals with the same value are the same string */
  lemma SameTwoDigitNumerals(p: string, t: string)
    requires |p| == 2 && IsDigits(p) && |t| == 2 && IsDigits(t)
    requires FromBase(p, 10) == FromBase(t, 10)
    ensures p == t
  {
    TwoDigitValue(p);
    TwoDigitValue(t);
    DigitPairUnique(DigitValue(p[0]), DigitValue(p[1]), DigitValue(t[0]), DigitValue(t[1]));
    DigitValueInjective(p[0], t[0]);
    DigitValueInjective(p[1], t[1]);
    SameTwoChars(p, t);
  }

  lemma SameTwoChars(p: string, t: string)
    requires |p| == 2 && |t| == 2 && p[0] == t[0] && p[1] == t[1]
    ensures p == t
  {
  }

  lemma DigitPairUnique(a: nat, b: nat, c: nat, d: nat)
    requires a < 10 && b < 10 && c < 10 && d < 10
    requires a * 10 + b == c * 10 + d
    ensures a == c && b == d
  {
  }

  lemma DigitValueInjective(c: char, d: char)
    requires IsDigit(c) && IsDigit(d) && DigitValue(c) == DigitValue(d)
    ensures c == d
  {
  }

  lemma TwoDigitValue(t: string)
    requires |t| == 2 && IsDigits(t)
    ensures FromBase(t, 10) == DigitValue(t[0]) * 10 + DigitValue(t[1])
    ensures DigitValue(t[0]) < 10 && DigitValue(t[1]) < 10
  {
    assert t[..1][..0] == [];
    assert FromBase(t[..1], 10) == DigitValue(t[0]);
    assert IsDigit(t[0]) && IsDigit(t[1]);
  }

  /**
    Reads one data object off the front of `s` and returns it with the text
    that follows. Whatever it reads, writing it back with `Tlv` gives the
    input again.
   */
  function ParseObject(s: string): (r: Option<(DataObject, string)>)
    ensures r.Some? ==> Framable(r.value.0)
    ensures r.Some? ==> s == Tlv(r.value.0.id, r.value.0.value) + r.value.1
    ensures r.Some? ==> |r.value.1| + 4 <= |s|
  {
    if |s| < 4 || !IsDigits(s[2..4]) then None
    else
      var n := FromBase(s[2..4], 10);
      if |s| < 4 + n then None
      else
        ReadBack(s, n);
        Some((DataObject(s[..2], s[4..4 + n]), s[4 + n..]))
  }

  lemma ReadBack(s: string, n: nat)
    requires 4 + n <= |s| && IsDigits(s[2..4]) && FromBase(s[2..4], 10) == n
    ensures n <= 99
    ensures s == Tlv(s[..2], s[4..4 + n]) + s[4 + n..]
  {
    TwoDigitsCanonical(s[2..4]);
    ReadBackParts(s, s[2..4], n);
  }

  lemma ReadBackParts(s: string, h: string, n: nat)
    requires 4 + n <= |s| && h == s[2..4] && h == Pad2(n)
    ensures s == Tlv(s[..2], s[4..4 + n]) + s[4 + n..]
  {
    TlvParts(s[..2], h, s[4..4 + n]);
    SplitHeader(s, n);
  }

  lemma TlvParts(id: string, header: string, value: string)
    requires header == Pad2(|value|)
    ensures Tlv(id, value) == id + header + value
  {
  }

  lemma SplitHeader(s: string, n: nat)
    requires 4 + n <= |s|
    ensures s == s[..2] + s[2..4] + s[4..4 + n] + s[4 + n..]
  {
    assert s[..4] == s[..2] + s[2..4];
    assert s[..4 + n] == s[..4] + s[4..4 + n];
    assert s == s[..4 + n] + s[4 + n..];
  }

  /** Reading a framable object back recovers it exactly, whatever follows it */
  lemma ParseTlv(id: string, value: string, rest: string)
    requires Framable(DataObject(id, value))
    ensures ParseObject(Tlv(id, value) + rest) == Some((DataObject(id, value), rest))
  {
    var s := Tlv(id, value) + rest;
    TlvHeader(id, value);
    assert s[..2] == id;
    assert s[2..4] == Tlv(id, value)[2..4];
    assert s[4..4 + |value|] == value;
    assert s[4 + |value|..] == rest;
  }

  /**
    A value longer than 99 characters gets its full length written in three
    or more digits, and the text is never read back as the object written.
   */
  lemma OversizedValueBreaksFraming(id: string, value: string, rest: string)
    requires |value| > 99
    ensures Tlv(id, value) == id + ToBase(|value|, 10) + value
    ensures 3 <= |ToBase(|value|, 10)|
    ensures ParseObject(Tlv(id, value) + rest) != Some((DataObject(id, value), rest))
  {
    var t := ToBase(|value|, 10);
    ToBaseLength(|value|, 10, 2);
    assert Pow(10, 2) == 100;
    assert PadStart(t, 2, '0') == [] + t == t;
  }

  /** The concatenation of the objects' encodings, in order */
  function EncodeObjects(ds: seq<DataObject>): string {
    if ds == [] then [] else Tlv(ds[0].id, ds[0].value) + EncodeObjects(ds[1..])
  }

  /**
    Splits a whole string into data objects. A successful parse consists of
    framable objects whose encodings concatenate to the input.
   */
  function ParseObjects(s: string): (r: Option<seq<DataObject>>)
    ensures r.Some? ==> AllFramable(r.value) && EncodeObjects(r.value) == s
    decreases |s|
  {
    if s == [] then Some([])
    else
      match ParseObject(s)
      case None => None
      case Some((d, rest)) =>
        match ParseObjects(rest)
        case None => None
        case Some(ds) => Some([d] + ds)
  }

  /** Writing framable objects and reading the text back recovers the same objects */
  lemma {:induction false} ParseEncodeObjects(ds: seq<DataObject>)
    requires AllFramable(ds)
    ensures ParseObjects(EncodeObjects(ds)) == Some(ds)
    decreases |ds|
  {
    if ds != [] {
      ParseTlv(ds[0].id, ds[0].value, EncodeObjects(ds[1..]));
      ParseEncodeObjects(ds[1..]);
      assert [ds[0]] + ds[1..] == ds;
    }
  }

  lemma {:induction false} EncodeObjectsAppend(ds: seq<DataObject>, es: seq<DataObject>)
    ensures EncodeObjects(ds + es) == EncodeObjects(ds) + EncodeObjects(es)
    decreases |ds|
  {
    if ds == [] {
      assert ds + es == es;
    } else {
      assert (ds + es)[1..] == ds[1..] + es;
      EncodeObjectsAppend(ds[1..], es);
    }
  }
}

=== FILE: wrappers.dfy ===
/** The optional-value datatype used by the parsers and by the optional amount. */
module Wrappers {

  datatype Option<+T> = None | Some(value: T)
}
